=== FILE: README.md ===
# Food records: name-uniqueness gatekeeping over a record store

This project models the core of MacroTracker, a service that keeps food
records. Each record has a name and four nutrient amounts: fat,
carbohydrates, protein and calories. The model covers three parts:

- the `Food` entity and its bean-validation constraints (`food.dfy`, module
  `Entity`);
- the record store behind `FoodRepository`: the keyed operations it inherits
  and its four derived queries (`repository.dfy`, module `FoodRepository`);
- `FoodServiceImpl`, the business-rule layer (`service.dfy`, module
  `FoodService`). It refuses a create or rename to a name that is already
  taken, ignoring case. It refuses an update or delete of an unknown id.

The store is a `map<nat, Food>` keyed by id, plus the next value of the
identity generator. Every service operation is a pure function. The three
transitions (`saveFood`, `updateFood`, `deleteFood`) take a store and return
the next store together with a `Result`: either `Ok`, or the error the Java
code throws. The reads and searches return plain values. The central property is the name-uniqueness
invariant. No two stored records carry names that are equal ignoring case,
and every `saveFood`, `updateFood` and `deleteFood` preserves this. Each
transition's contract states it, and `FoodService.RunKeepsNamesUnique`
extends it to any sequence of calls.

Supporting modules:

- `Optional` (`optional.dfy`) replaces Java's nullable references and
  `Optional<Food>`.
- `Text` (`text.dfy`) holds ASCII case folding, substring search, and the
  `String.trim` test that `@NotBlank` uses.
- `Scenarios` (`scenarios.dfy`) replays the repository and service tests on
  concrete records.

Modelling decisions:

- **Case folding.** A single ASCII lower-casing `Fold` serves both
  `String.equalsIgnoreCase` in the service and the `IgnoreCase` keyword of the
  derived queries.
- **Null columns.** A filter never matches a null column, as in SQL.
- **Null name lookup.** `existsByNameIgnoreCase(null)` is modelled the way
  Spring Data treats a null argument to an equality query: as `name IS NULL`.
  A missing name therefore "matches" only a missing name.
- **Null stored name in an update.** `updateFood` calls `getName()` on the
  stored record and dereferences the result (FoodServiceImpl.java line 45).
  A stored record without a name therefore makes the call throw a
  `NullPointerException`. This is modelled as the error `NullName`.
- **Nutrient amounts.** They are `real`. The code only compares them.
- **Result order.** Query results are returned in ascending id order. The
  model promises this order; the database does not guarantee any order.

Two points about where the rules are enforced:

- **Validation lives at the HTTP boundary.** The non-blank name and the
  non-negative amounts are bean-validation annotations on the entity
  (Food.java lines 20-37). The controller checks them through `@Valid` on
  the request body of create and update (FoodController.java lines 45 and
  51). The service does not check them. JPA may also run bean validation
  before a persist, but the model leaves that store-side check out, so the
  model's store accepts any record and `Entity.Valid` is a separate
  predicate.
- **The rename check.** The comment at FoodServiceImpl.java line 44 says a
  rename is refused when the new name is taken "by a different food". The
  code below it asks only whether the name is taken at all, after skipping
  the check when the new name equals the current one ignoring case. When
  the names differ, any record holding the new name is a different record.
  When they are equal, the check is skipped; on a store with unique names no
  different record can then hold the new name. So the two agree on a store
  with unique names. `FoodService.UpdateFood` proves both: its contract
  gives DuplicateName exactly when the current name differs from the new one
  and some record holds the new name, and, on a store with unique names,
  exactly when a record other than the updated one holds it.

## Model

| member | source | states |
|---|---|---|
| `Entity.NewFood` | src/main/java/com/example/macrotracker/entity/Food.java:43-50 | the five-argument constructor sets name, fat, carbohydrates, protein and calories to its arguments and leaves the id absent |
| `Entity.WithDetails` | src/main/java/com/example/macrotracker/service/FoodServiceImpl.java:50-54 | the five setter calls leave the record equal to the details in every field but the id, which is kept |
| `Entity.ViolationIff` | src/main/java/com/example/macrotracker/entity/Food.java:20-37 | the validator reports a field exactly when that field is missing, blank (name) or negative (amounts) |
| `Entity.ValidIff` | src/main/java/com/example/macrotracker/entity/Food.java:20-37 | a record is valid iff its name is present with a character above U+0020 (what `String.trim` keeps) and fat, carbohydrates, protein and calories are present and at least 0 |
| `Entity.MissingNameNegativeFatRejected` | src/test/java/com/example/macrotracker/controller/FoodControllerTest.java:98-106 | a record with a null name and fat -1.0 is not valid, with exactly the name-required and fat-negative messages |
| `Text.NotBlankIff` | src/main/java/com/example/macrotracker/entity/Food.java:20-21 | a name passes `@NotBlank` (non-empty after trimming) iff it has a character above the space |
| `Text.CompareIgnoreCase` | src/main/java/com/example/macrotracker/service/FoodServiceImpl.java:45 | the length-then-character-pairs comparison of `equalsIgnoreCase` returns true iff the two folded strings are equal |
| `FoodRepository.Find` | src/main/java/com/example/macrotracker/repository/FoodRepository.java:11-22 | a query returns exactly the stored records that satisfy its criterion, each once, in strictly increasing id order |
| `FoodRepository.FindDetermined` | src/main/java/com/example/macrotracker/repository/FoodRepository.java:11-22 | any id-ordered list holding exactly the matching stored records is the query's answer |
| `FoodRepository.FindById` | src/main/java/com/example/macrotracker/repository/FoodRepository.java:11 | `findById` finds something iff the id is stored, and what it finds is a stored record carrying that id |
| `FoodRepository.ExistsById` | src/main/java/com/example/macrotracker/repository/FoodRepository.java:11 | `existsById` is true iff `findById` finds a record |
| `FoodRepository.FindAll` | src/main/java/com/example/macrotracker/repository/FoodRepository.java:11 | `findAll` holds every stored record and nothing else, with no record twice |
| `FoodRepository.Save` | src/main/java/com/example/macrotracker/entity/Food.java:16-18 | `save` of an id-less record assigns the identity generator's next value, which is not yet in use, and advances the generator by one; `save` of a stored id keeps that id and leaves the generator alone; the saved record is found under its id with the given fields, and every other record is unchanged |
| `FoodRepository.DeleteById` | src/main/java/com/example/macrotracker/repository/FoodRepository.java:11 | `deleteById` removes exactly that id, leaves the other records and the identity generator unchanged, and changes nothing for a missing id |
| `FoodRepository.FindByNameContainingIgnoreCase` | src/main/java/com/example/macrotracker/repository/FoodRepository.java:12-13 | returns exactly the stored records with a name whose fold contains the fold of the fragment |
| `FoodRepository.FindByCaloriesLessThanEqual` | src/main/java/com/example/macrotracker/repository/FoodRepository.java:15-16 | returns exactly the stored records with calories at most the bound, boundary included |
| `FoodRepository.FindByProteinBetween` | src/main/java/com/example/macrotracker/repository/FoodRepository.java:18-19 | returns exactly the stored records with protein in the closed range |
| `FoodRepository.ExistsByNameIgnoreCase` | src/main/java/com/example/macrotracker/repository/FoodRepository.java:21-22 | true iff some stored record's name equals the argument ignoring case |
| `FoodRepository.SaveThenFindById` | src/test/java/com/example/macrotracker/repository/FoodRepositoryTest.java:73-85 | after saving an id-less record, `findById` on the returned id yields that record with the same fields |
| `FoodRepository.DeleteRemovesFromFindAll` | src/main/java/com/example/macrotracker/service/FoodServiceImpl.java:59-65 | after a delete no record with that id is in `findAll`, and every other record still is |
| `FoodService.IsFoodNameTaken` | src/main/java/com/example/macrotracker/service/FoodServiceImpl.java:82-85 | true iff some stored record carries the name, ignoring case |
| `FoodService.SaveFood` | src/main/java/com/example/macrotracker/service/FoodServiceImpl.java:21-27 | fails with DuplicateName iff the name is taken ignoring case, and then the store is unchanged; otherwise exactly one record is inserted under the generator's next id with the given fields and returned, and the generator advances by one; names that were unique ignoring case stay unique |
| `FoodService.GetFoodById` | src/main/java/com/example/macrotracker/service/FoodServiceImpl.java:29-32 | returns the record stored under the id, which carries that id, and nothing when the id is unknown |
| `FoodService.GetAllFoods` | src/main/java/com/example/macrotracker/service/FoodServiceImpl.java:34-37 | returns every stored record and nothing else |
| `FoodService.UpdateFood` | src/main/java/com/example/macrotracker/service/FoodServiceImpl.java:39-57 | NotFound iff the id is unknown; NullName (the dereference of a missing stored name) iff the stored record has no name; success iff the record exists with a name and the new name either equals the current one ignoring case or is held by no record; DuplicateName iff the new name differs from the current one and some record holds it, and on a store with unique names iff a different record holds it; on success the five fields are overwritten, the id is kept, every other record is unchanged; on any error the store is unchanged; names that were unique ignoring case stay unique, including after a rename that changes only the case |
| `FoodService.DeleteFood` | src/main/java/com/example/macrotracker/service/FoodServiceImpl.java:59-65 | NotFound iff the id is unknown, with no change; otherwise the id is no longer found, every other record is unchanged and the identity generator is not moved back; names that were unique ignoring case stay unique |
| `FoodService.SearchFoodsByName` | src/main/java/com/example/macrotracker/service/FoodServiceImpl.java:67-70 | returns exactly the stored records whose name contains the fragment ignoring case |
| `FoodService.GetFoodsByCaloriesLessThan` | src/main/java/com/example/macrotracker/service/FoodServiceImpl.java:72-75 | despite the name, returns exactly the records with calories at most the bound, and always includes a record exactly on the bound |
| `FoodService.GetFoodsByProteinRange` | src/main/java/com/example/macrotracker/service/FoodServiceImpl.java:77-80 | returns exactly the records with protein between the bounds, both included |
| `FoodService.Run` | src/main/java/com/example/macrotracker/entity/Food.java:16-18 | over any sequence of creates, updates and deletes the store invariant holds and the identity generator never moves back, so a deleted id is not handed out again |
| `FoodService.RunKeepsNamesUnique` | src/main/java/com/example/macrotracker/service/FoodServiceImpl.java:21-65 | any sequence of creates, updates and deletes from a store with unique names leads to a store with unique names |
| `FoodService.ReachableNamesUnique` | src/main/java/com/example/macrotracker/service/FoodServiceImpl.java:21-65 | every store reachable from an empty table through the service has unique names |
| `Scenarios.Seeded` | src/test/java/com/example/macrotracker/repository/FoodRepositoryTest.java:25-34 | saving the three test records into an empty table stores them under ids 1, 2 and 3 |
| `Scenarios.LowerCaseFragmentFound` | src/test/java/com/example/macrotracker/repository/FoodRepositoryTest.java:36-41 | "chicken" finds exactly the chicken breast |
| `Scenarios.UpperCaseFragmentFound` | src/test/java/com/example/macrotracker/repository/FoodRepositoryTest.java:43-46 | "POTATO" finds exactly the sweet potato |
| `Scenarios.CalorieCeiling` | src/test/java/com/example/macrotracker/repository/FoodRepositoryTest.java:49-55 | a 150-calorie ceiling finds exactly the sweet potato |
| `Scenarios.CalorieCeilingInclusive` | src/main/java/com/example/macrotracker/repository/FoodRepository.java:15-16 | a ceiling of exactly 165 calories includes the 165-calorie chicken breast |
| `Scenarios.ProteinRange` | src/test/java/com/example/macrotracker/repository/FoodRepositoryTest.java:57-63 | protein between 20 and 30 finds exactly the salmon fillet |
| `Scenarios.NameExistence` | src/test/java/com/example/macrotracker/repository/FoodRepositoryTest.java:65-71 | "chicken breast" and "SALMON FILLET" exist ignoring case; "Pizza" does not |
| `Scenarios.SaveAndRetrieve` | src/test/java/com/example/macrotracker/repository/FoodRepositoryTest.java:73-85 | a saved banana is found again under its new id with its fields |
| `Scenarios.DuplicateNameDifferingInCase` | src/main/java/com/example/macrotracker/service/FoodServiceImpl.java:22-25 | creating "APPLE" after "Apple" fails with DuplicateName, and "Apple" stays the only record |
| `Scenarios.CreateReadUpdateDelete` | src/test/java/com/example/macrotracker/service/FoodServiceTest.java:96-110 | create, read, rename to "Chicken Breast Updated" with protein 32 under the same id, delete, then the id is not found |
| `Scenarios.RenameToOwnNameInOtherCase` | src/main/java/com/example/macrotracker/service/FoodServiceImpl.java:44-48 | renaming "Salmon Fillet" to "SALMON FILLET" succeeds |
| `Scenarios.RenameToTakenName` | src/test/java/com/example/macrotracker/service/FoodServiceTest.java:175-189 | renaming the chicken breast to "Salmon Fillet" fails with DuplicateName and the store is unchanged |
| `Scenarios.UnknownIdNotFound` | src/test/java/com/example/macrotracker/service/FoodServiceTest.java:112-143 | updating or deleting id 999 fails with NotFound and changes nothing |

## Left out

- The HTTP layer (`FoodController`) and its status-code mapping. It is
  request plumbing; none of the code modelled here maps
  `EntityNotFoundException` to a status code.
- JPA, Spring Data and the database. This covers SQL generation, database
  collation and transactions (`@Transactional`). The store is an abstract map,
  and all case-insensitive comparisons use one ASCII fold. Unicode case rules
  are not modelled.
- Bean validation that JPA may run before a persist. The model leaves this
  store-side check out: the store accepts any record, and validation is the
  separate predicate `Entity.Valid`.
- Concurrency. Two concurrent creates can both pass the name check, and two
  concurrent deletes can race. The model is sequential.
- `Double` behaviour: NaN, infinities, rounding and boxing. Amounts are exact
  `real` values.
- Entity.ViolationIff and Entity.ValidIff: the model reads `@Min(0)` on each
  amount as the exact test `>= 0` that the messages state. The Bean
  Validation contract does not support `@Min` on `Double` and leaves any
  check on it approximate and up to the provider. A provider that compares
  the truncated `longValue()` lets amounts strictly between -1 and 0 pass.
  That approximate check is not modelled.
- Negative ids. The service takes a Java `Long`, which may be negative; the
  model's ids are `nat`. Negative ids are never stored, so every lookup,
  update or delete of one is not-found, which the model does not state.
- The 64-bit range of `Long` ids. Ids are unbounded `nat`; overflow of the
  identity column is not modelled.
- Null arguments. A null fragment or bound passed to
  `findByNameContainingIgnoreCase`, `findByCaloriesLessThanEqual` or
  `findByProteinBetween` is not modelled; the fragment and the bounds are
  plain values. A null `Food` passed to `saveFood` or `updateFood` would throw
  a `NullPointerException`, and a null id passed to `findById`, `existsById`
  or `deleteById` is rejected by Spring Data. Neither is modelled: the
  model's `Food` parameters are always present and its ids are `nat`.
- Logging, dependency injection and JSON serialisation.
- FoodService.SaveFood: requires an id-less record. Saving a record that
  already carries an id would go through JPA's merge, which is not modelled.
- FoodRepository.Save: requires the record to have no id or the id of a
  stored record. Saving a record whose id is not in the table is not modelled.
- The order of query results. The database promises none; the ascending id
  order the model returns is a choice of the model.

=== FILE: food.dfy ===
/**
  The `Food` entity: an optional store-assigned id and five nullable fields,
  together with the bean-validation constraints declared on them.
 */
module Entity {
  import opened Optional
  import opened Text

  /**
    One food record. Every field is a nullable reference in the entity class,
    so every field is an `Option`; the nutrient amounts are only ever compared,
    never computed with, so they are `real`.
   */
  datatype Food = Food(
    id: Option<nat>,
    name: Option<string>,
    fat: Option<real>,
    carbohydrates: Option<real>,
    protein: Option<real>,
    calories: Option<real>)

  /** The five-argument constructor: every field but the id, which stays absent. */
  function NewFood(name: Option<string>, fat: Option<real>, carbohydrates: Option<real>,
                   protein: Option<real>, calories: Option<real>): (f: Food)
    ensures f.id.None?
    ensures f.name == name && f.fat == fat && f.carbohydrates == carbohydrates
    ensures f.protein == protein && f.calories == calories
  {
    Food(None, name, fat, carbohydrates, protein, calories)
  }

  /**
    The five setter calls of an update: `food` takes every field of `details`
    except the id, which it keeps.
   */
  function WithDetails(food: Food, details: Food): (r: Food)
    ensures r.id == food.id
    ensures r.(id := details.id) == details
  {
    food.(name := details.name, calories := details.calories, protein := details.protein,
          carbohydrates := details.carbohydrates, fat := details.fat)
  }

  datatype Field = Name | Fat | Carbohydrates | Protein | Calories

  /** One constraint violation as the validator reports it: the field and the message. */
  datatype Violation = Violation(field: Field, message: string)

  const NameRequired := "Food name is required"
  const FatRequired := "Fat content is required"
  const FatNegative := "Fat content must be greater than or equal to 0"
  const CarbohydratesRequired := "Carbohydrate content is required"
  const CarbohydratesNegative := "Carbohydrate content must be greater than or equal to 0"
  const ProteinRequired := "Protein content is required"
  const ProteinNegative := "Protein content must be greater than or equal to 0"
  const CaloriesRequired := "Calorie content is required"
  const CaloriesNegative := "Calorie content must be greater than or equal to 0"

  /** `@NotBlank` on the name: a null or blank name is reported once. */
  function NameViolations(name: Option<string>): set<Violation> {
    if name.Some? && NotBlank(name.value) then {} else {Violation(Name, NameRequired)}
  }

  /**
    `@NotNull` together with `@Min(0)` on one amount. `@Min` accepts a null,
    so a missing amount reports only the "required" message.
   */
  function AmountViolations(field: Field, amount: Option<real>, required: string, negative: string)
    : set<Violation>
  {
    match amount
    case None => {Violation(field, required)}
    case Some(v) => if v < 0.0 then {Violation(field, negative)} else {}
  }

  /** Every constraint violation of a record. */
  function Violations(f: Food): set<Violation> {
    NameViolations(f.name)
    + AmountViolations(Fat, f.fat, FatRequired, FatNegative)
    + AmountViolations(Carbohydrates, f.carbohydrates, CarbohydratesRequired, CarbohydratesNegative)
    + AmountViolations(Protein, f.protein, ProteinRequired, ProteinNegative)
    + AmountViolations(Calories, f.calories, CaloriesRequired, CaloriesNegative)
  }

  /** A record passes validation when the validator reports nothing. */
  predicate Valid(f: Food) {
    Violations(f) == {}
  }

  /** Whether one field of a record meets its constraints, stated field by field. */
  predicate FieldOk(f: Food, field: Field) {
    match field
    case Name => f.name.Some? && HasNonBlank(f.name.value)
    case Fat => f.fat.Some? && f.fat.value >= 0.0
    case Carbohydrates => f.carbohydrates.Some? && f.carbohydrates.value >= 0.0
    case Protein => f.protein.Some? && f.protein.value >= 0.0
    case Calories => f.calories.Some? && f.calories.value >= 0.0
  }

  /** The validator reports a field exactly when that field breaks its constraint. */
  lemma ViolationIff(f: Food, field: Field)
    ensures (exists v :: v in Violations(f) && v.field == field) <==> !FieldOk(f, field)
  {
    if f.name.Some? {
      NotBlankIff(f.name.value);
    }
    match field
    case Name =>
      if !FieldOk(f, Name) {
        assert Violation(Name, NameRequired) in Violations(f);
      }
    case Fat =>
      if !FieldOk(f, Fat) {
        assert Violation(Fat, if f.fat.None? then FatRequired else FatNegative) in Violations(f);
      }
    case Carbohydrates =>
      if !FieldOk(f, Carbohydrates) {
        assert Violation(Carbohydrates, if f.carbohydrates.None? then CarbohydratesRequired
                                        else CarbohydratesNegative) in Violations(f);
      }
    case Protein =>
      if !FieldOk(f, Protein) {
        assert Violation(Protein, if f.protein.None? then ProteinRequired else ProteinNegative)
          in Violations(f);
      }
    case Calories =>
      if !FieldOk(f, Calories) {
        assert Violation(Calories, if f.calories.None? then CaloriesRequired else CaloriesNegative)
          in Violations(f);
      }
  }

  /**
    A record is valid exactly when its name is present and has a character
    above U+0020 and all four amounts are present and at least zero.
   */
  lemma ValidIff(f: Food)
    ensures Valid(f) <==> FieldOk(f, Name) && FieldOk(f, Fat) && FieldOk(f, Carbohydrates)
                          && FieldOk(f, Protein) && FieldOk(f, Calories)
  {
    ViolationIff(f, Name);
    ViolationIff(f, Fat);
    ViolationIff(f, Carbohydrates);
    ViolationIff(f, Protein);
    ViolationIff(f, Calories);
    if !Valid(f) {
      var v :| v in Violations(f);
      assert v.field in {Name, Fat, Carbohydrates, Protein, Calories};
    }
  }

  /**
    A record built with no name and a negative fat amount is rejected, with
    exactly the two matching messages.
   */
  lemma MissingNameNegativeFatRejected()
    ensures !Valid(NewFood(None, Some(-1.0), Some(25.0), Some(0.3), Some(95.0)))
    ensures Violations(NewFood(None, Some(-1.0), Some(25.0), Some(0.3), Some(95.0)))
            == {Violation(Name, NameRequired), Violation(Fat, FatNegative)}
  {
  }
}

=== FILE: optional.dfy ===
/**
  Absent-or-present values. The Java entity uses nullable references (`Long`,
  `String`, `Double`) and the repository returns `Optional<Food>`; both become
  `Option` here, so that "absent" is an explicit case rather than a null.
 */
module Optional {

  datatype Option<+T> = None | Some(value: T)
}

=== FILE: repository.dfy ===
/**
  The record store behind the food service: the inherited keyed operations
  (`save`, `findById`, `existsById`, `deleteById`, `findAll`) and the four
  derived queries, whose meaning is fixed by their method names. The store is
  a map from id to record plus the next value of the identity generator.
 */
module FoodRepository {
  import opened Optional
  import opened Text
  import opened Entity

  datatype Store = Store(records: map<nat, Food>, nextId: nat)

  /** An empty table; the identity column starts at 1. */
  const Empty := Store(map[], 1)

  /** Every stored record carries its own key as its id. */
  ghost predicate KeyedById(m: map<nat, Food>) {
    forall k :: k in m ==> m[k].id == Some(k)
  }

  /**
    The store's own invariant: records are keyed by their id, and the identity
    generator is ahead of every id it has handed out.
   */
  ghost predicate Inv(s: Store) {
    && KeyedById(s.records)
    && forall k :: k in s.records ==> k < s.nextId
  }

  /**
    Name equality as `name = ?` with `IgnoreCase`: two present names match when
    they fold to the same string, and a null argument is looked up as
    `IS NULL`, so it matches only a missing name.
   */
  predicate SameName(a: Option<string>, b: Option<string>) {
    match (a, b)
    case (Some(x), Some(y)) => EqualsIgnoreCase(x, y)
    case (None, None) => true
    case _ => false
  }

  /** The selection criteria of the derived queries, plus `findAll`. */
  datatype Query =
    | All
    | NameContaining(fragment: string)
    | CaloriesAtMost(maxCalories: real)
    | ProteinBetween(minProtein: real, maxProtein: real)
    | NameIs(name: Option<string>)

  /**
    Whether a record satisfies a criterion. A comparison against a missing
    (NULL) column never holds, as in SQL.
   */
  predicate Matches(q: Query, f: Food) {
    match q
    case All => true
    case NameContaining(s) => f.name.Some? && Contains(Fold(f.name.value), Fold(s))
    case CaloriesAtMost(c) => f.calories.Some? && f.calories.value <= c
    case ProteinBetween(lo, hi) => f.protein.Some? && lo <= f.protein.value <= hi
    case NameIs(n) => SameName(f.name, n)
  }

  /**
    The records with key below `n` that satisfy `q`, in ascending key order:
    a scan of the key range, standing in for the table scan of the query.
   */
  function Select(m: map<nat, Food>, q: Query, n: nat): (r: seq<Food>)
    requires KeyedById(m)
    ensures forall i :: 0 <= i < |r| ==>
              && Matches(q, r[i]) && r[i].id.Some? && r[i].id.value < n
              && r[i].id.value in m && m[r[i].id.value] == r[i]
    ensures forall k :: k in m && k < n && Matches(q, m[k]) ==> m[k] in r
    ensures forall i, j :: 0 <= i < j < |r| && r[i].id.Some? && r[j].id.Some? ==>
              r[i].id.value < r[j].id.value
  {
    if n == 0 then []
    else
      var k := n - 1;
      Select(m, q, k) + (if k in m && Matches(q, m[k]) then [m[k]] else [])
  }

  /** Every record in `r` has an id, and the ids strictly increase along `r`. */
  predicate IdsIncreasing(r: seq<Food>) {
    && (forall i :: 0 <= i < |r| ==> r[i].id.Some?)
    && (forall i, j :: 0 <= i < j < |r| ==> r[i].id.value < r[j].id.value)
  }

  /**
    Runs a query over the whole store: the result holds exactly the stored
    records that satisfy it, each once, in ascending id order.
   */
  function Find(s: Store, q: Query): (r: seq<Food>)
    requires Inv(s)
    ensures forall f :: f in r <==> f in s.records.Values && Matches(q, f)
    ensures IdsIncreasing(r)
  {
    var r := Select(s.records, q, s.nextId);
    assert forall f :: f in s.records.Values ==> exists k :: k in s.records && s.records[k] == f;
    r
  }

  /** A query finds something exactly when some stored record satisfies it. */
  lemma FindNonEmptyIff(s: Store, q: Query)
    requires Inv(s)
    ensures |Find(s, q)| > 0 <==> exists k :: k in s.records && Matches(q, s.records[k])
  {
    var r := Find(s, q);
    forall k | k in s.records && Matches(q, s.records[k])
      ensures |r| > 0
    {
      assert s.records[k] in s.records.Values;
    }
    if |r| > 0 {
      assert r[0] in r;
      assert r[0].id.value in s.records;
    }
  }

  /** `findById`: the record stored under `id`, if any. */
  function FindById(s: Store, id: nat): (r: Option<Food>)
    requires Inv(s)
    ensures r.Some? <==> id in s.records
    ensures r.Some? ==> r.value in s.records.Values && r.value.id == Some(id)
  {
    if id in s.records then Some(s.records[id]) else None
  }

  /** `existsById`: agrees with `findById` finding something. */
  function ExistsById(s: Store, id: nat): (r: bool)
    requires Inv(s)
    ensures r <==> FindById(s, id).Some?
  {
    id in s.records
  }

  /** `findAll`: every stored record, each once. */
  function FindAll(s: Store): (r: seq<Food>)
    requires Inv(s)
    ensures forall f :: f in r <==> f in s.records.Values
    ensures forall i, j :: 0 <= i < j < |r| ==> r[i] != r[j]
  {
    Find(s, All)
  }

  /** `findByNameContainingIgnoreCase`: records whose folded name contains the folded fragment. */
  function FindByNameContainingIgnoreCase(s: Store, fragment: string): (r: seq<Food>)
    requires Inv(s)
    ensures forall f :: f in r <==>
              f in s.records.Values && f.name.Some? && Contains(Fold(f.name.value), Fold(fragment))
  {
    Find(s, NameContaining(fragment))
  }

  /** `findByCaloriesLessThanEqual`: records with calories at most `maxCalories`, boundary included. */
  function FindByCaloriesLessThanEqual(s: Store, maxCalories: real): (r: seq<Food>)
    requires Inv(s)
    ensures forall f :: f in r <==>
              f in s.records.Values && f.calories.Some? && f.calories.value <= maxCalories
  {
    Find(s, CaloriesAtMost(maxCalories))
  }

  /** `findByProteinBetween`: records with protein in the closed range. */
  function FindByProteinBetween(s: Store, minProtein: real, maxProtein: real): (r: seq<Food>)
    requires Inv(s)
    ensures forall f :: f in r <==>
              f in s.records.Values && f.protein.Some? && minProtein <= f.protein.value <= maxProtein
  {
    Find(s, ProteinBetween(minProtein, maxProtein))
  }

  /** `existsByNameIgnoreCase`: some stored record carries the name, ignoring case. */
  function ExistsByNameIgnoreCase(s: Store, name: Option<string>): (r: bool)
    requires Inv(s)
    ensures r <==> exists k :: k in s.records && SameName(s.records[k].name, name)
  {
    FindNonEmptyIff(s, NameIs(name));
    |Find(s, NameIs(name))| > 0
  }

  /** The outcome of `save`: the new store and the stored representation. */
  datatype Saved = Saved(store: Store, food: Food)

  /**
    `save`: a record without an id is inserted under a fresh id from the
    identity generator; a record with the id of a stored record replaces it.
   */
  function Save(s: Store, f: Food): (r: Saved)
    requires Inv(s)
    requires f.id.None? || f.id.value in s.records
    ensures Inv(r.store)
    ensures r.food.id.Some? && r.food.(id := f.id) == f
    ensures f.id.Some? ==> r.food.id == f.id
    ensures f.id.None? ==> r.food.id.value !in s.records
    ensures f.id.None? ==> r.food.id == Some(s.nextId) && r.store.nextId == s.nextId + 1
    ensures f.id.Some? ==> r.store.nextId == s.nextId
    ensures FindById(r.store, r.food.id.value) == Some(r.food)
    ensures r.store.records.Keys == s.records.Keys + {r.food.id.value}
    ensures forall k :: k in s.records && k != r.food.id.value ==>
              r.store.records[k] == s.records[k]
  {
    match f.id
    case None =>
      var saved := f.(id := Some(s.nextId));
      Saved(Store(s.records[s.nextId := saved], s.nextId + 1), saved)
    case Some(k) =>
      Saved(Store(s.records[k := f], s.nextId), f)
  }

  /** `deleteById`: removes the record under `id`; a missing id leaves the store as it was. */
  function DeleteById(s: Store, id: nat): (r: Store)
    requires Inv(s)
    ensures Inv(r)
    ensures FindById(r, id).None?
    ensures r.records.Keys == s.records.Keys - {id}
    ensures forall k :: k in r.records ==> r.records[k] == s.records[k]
    ensures id !in s.records ==> r == s
    ensures r.nextId == s.nextId
  {
    Store(s.records - {id}, s.nextId)
  }

  /** Two id-ordered lists holding the same records are the same list. */
  lemma {:induction false} IncreasingListsEqual(a: seq<Food>, b: seq<Food>)
    requires IdsIncreasing(a) && IdsIncreasing(b)
    requires forall f :: f in a <==> f in b
    ensures a == b
    decreases |a|
  {
    assert a != [] ==> a[0] in b;
    assert b != [] ==> b[0] in a;
    if a != [] {
      assert a[0] == b[0];
      forall f | f in a[1..]
        ensures f in b[1..]
      {
        assert f in b && f != b[0];
      }
      forall f | f in b[1..]
        ensures f in a[1..]
      {
        assert f in a && f != a[0];
      }
      IncreasingListsEqual(a[1..], b[1..]);
      assert a == [a[0]] + a[1..];
      assert b == [b[0]] + b[1..];
    }
  }

  /**
    A query's answer is determined by what it promises: any id-ordered list of
    exactly the matching stored records is that answer.
   */
  lemma FindDetermined(s: Store, q: Query, expected: seq<Food>)
    requires Inv(s)
    requires IdsIncreasing(expected)
    requires forall f :: f in expected <==> f in s.records.Values && Matches(q, f)
    ensures Find(s, q) == expected
  {
    IncreasingListsEqual(Find(s, q), expected);
  }

  /** The empty table satisfies the invariant and holds nothing. */
  lemma EmptyInv()
    ensures Inv(Empty)
    ensures FindAll(Empty) == []
  {
  }

  /**
    Round trip: after saving a record without an id, looking up the returned
    id yields that record with every field as given.
   */
  lemma SaveThenFindById(s: Store, f: Food)
    requires Inv(s)
    requires f.id.None?
    ensures var saved := Save(s, f);
            && saved.food.id.Some?
            && FindById(saved.store, saved.food.id.value).Some?
            && FindById(saved.store, saved.food.id.value).value.(id := None) == f
  {
  }

  /** After a delete the record is gone from `findAll` as well as from `findById`. */
  lemma DeleteRemovesFromFindAll(s: Store, id: nat)
    requires Inv(s)
    ensures forall f :: f in FindAll(DeleteById(s, id)) ==> f.id != Some(id)
    ensures forall f :: f in FindAll(s) && f.id != Some(id) ==> f in FindAll(DeleteById(s, id))
  {
    var r := DeleteById(s, id);
    forall f | f in FindAll(s) && f.id != Some(id)
      ensures f in r.records.Values
    {
      var k :| k in s.records && s.records[k] == f;
      assert k != id;
      assert r.records[k] == f;
    }
  }
}

=== FILE: scenarios.dfy ===
/**
  Concrete runs of the model on the records the repository's tests use:
  chicken breast, salmon fillet and sweet potato, saved in that order into an
  empty table.
 */
module Scenarios {
  import opened Optional
  import opened Text
  import opened Entity
  import opened FoodRepository
  import opened FoodService

  const ChickenBreast := NewFood(Some("Chicken Breast"), Some(3.6), Some(0.0), Some(31.0), Some(165.0))
  const SalmonFillet := NewFood(Some("Salmon Fillet"), Some(13.0), Some(0.0), Some(25.0), Some(208.0))
  const SweetPotato := NewFood(Some("Sweet Potato"), Some(0.0), Some(26.3), Some(2.0), Some(103.0))

  /** The three records after saving, with the ids the identity column hands out. */
  const StoredChicken := ChickenBreast.(id := Some(1))
  const StoredSalmon := SalmonFillet.(id := Some(2))
  const StoredPotato := SweetPotato.(id := Some(3))

  /** The table after the three saves, built through `save`. */
  function Seeded(): (s: Store)
    ensures Inv(s)
    ensures s.records == map[1 := StoredChicken, 2 := StoredSalmon, 3 := StoredPotato]
    ensures s.nextId == 4
  {
    EmptyInv();
    var a := Save(Empty, ChickenBreast);
    var b := Save(a.store, SalmonFillet);
    var c := Save(b.store, SweetPotato);
    c.store
  }

  /** The records of the seeded table, in id order. */
  lemma SeededValues()
    ensures Seeded().records.Values == {StoredChicken, StoredSalmon, StoredPotato}
  {
    var m := Seeded().records;
    assert m[1] == StoredChicken && m[2] == StoredSalmon && m[3] == StoredPotato;
  }

  /** The folded names of the three records. */
  lemma SeededFolds()
    ensures Fold("Chicken Breast") == "chicken breast"
    ensures Fold("Salmon Fillet") == "salmon fillet"
    ensures Fold("Sweet Potato") == "sweet potato"
  {
  }

  /**
    A record whose name has no character folding to the fragment's first
    folded character is not selected by that fragment.
   */
  lemma FragmentStartAbsent(f: Food, fragment: string, folded: string)
    requires f.name.Some? && Fold(fragment) == folded && 0 < |folded|
    requires forall i :: 0 <= i < |f.name.value| ==> LowerChar(f.name.value[i]) != folded[0]
    ensures !Matches(NameContaining(fragment), f)
  {
    AbsentFirstCharNotContained(Fold(f.name.value), folded);
  }

  lemma ChickenFragmentSelectsChicken()
    ensures Matches(NameContaining("chicken"), StoredChicken)
  {
    SeededFolds();
    assert Fold("chicken") == "chicken";
    assert OccursAt("chicken breast", "chicken", 0);
  }

  lemma PotatoFragmentSelectsPotato()
    ensures Matches(NameContaining("POTATO"), StoredPotato)
  {
    SeededFolds();
    assert Fold("POTATO") == "potato";
    assert OccursAt("sweet potato", "potato", 6);
  }

  /** "chicken" finds only the chicken breast. */
  lemma LowerCaseFragmentFound()
    ensures FindByNameContainingIgnoreCase(Seeded(), "chicken") == [StoredChicken]
  {
    SeededValues();
    ChickenFragmentSelectsChicken();
    FragmentStartAbsent(StoredSalmon, "chicken", "chicken");
    FragmentStartAbsent(StoredPotato, "chicken", "chicken");
    FindDetermined(Seeded(), NameContaining("chicken"), [StoredChicken]);
  }

  /** "POTATO" finds only the sweet potato, whose name is in mixed case. */
  lemma UpperCaseFragmentFound()
    ensures FindByNameContainingIgnoreCase(Seeded(), "POTATO") == [StoredPotato]
  {
    SeededValues();
    FragmentStartAbsent(StoredChicken, "POTATO", "potato");
    FragmentStartAbsent(StoredSalmon, "POTATO", "potato");
    PotatoFragmentSelectsPotato();
    FindDetermined(Seeded(), NameContaining("POTATO"), [StoredPotato]);
  }

  /** Only the sweet potato has at most 150 calories. */
  lemma CalorieCeiling()
    ensures FindByCaloriesLessThanEqual(Seeded(), 150.0) == [StoredPotato]
  {
    SeededValues();
    FindDetermined(Seeded(), CaloriesAtMost(150.0), [StoredPotato]);
  }

  /** A record exactly on the ceiling is included. */
  lemma CalorieCeilingInclusive()
    ensures FindByCaloriesLessThanEqual(Seeded(), 165.0) == [StoredChicken, StoredPotato]
  {
    SeededValues();
    FindDetermined(Seeded(), CaloriesAtMost(165.0), [StoredChicken, StoredPotato]);
  }

  /** Only the salmon fillet has protein between 20 and 30. */
  lemma ProteinRange()
    ensures FindByProteinBetween(Seeded(), 20.0, 30.0) == [StoredSalmon]
  {
    SeededValues();
    FindDetermined(Seeded(), ProteinBetween(20.0, 30.0), [StoredSalmon]);
  }

  /** Existence by name ignores case, and an unknown name is not found. */
  lemma NameExistence()
    ensures ExistsByNameIgnoreCase(Seeded(), Some("chicken breast"))
    ensures ExistsByNameIgnoreCase(Seeded(), Some("SALMON FILLET"))
    ensures !ExistsByNameIgnoreCase(Seeded(), Some("Pizza"))
  {
    var s := Seeded();
    SeededFolds();
    assert Fold("chicken breast") == "chicken breast";
    assert Fold("SALMON FILLET") == "salmon fillet";
    assert SameName(s.records[1].name, Some("chicken breast"));
    assert SameName(s.records[2].name, Some("SALMON FILLET"));
    assert Fold("Pizza") == "pizza";
    assert forall k :: k in s.records ==> !SameName(s.records[k].name, Some("Pizza"));
  }

  /** A banana saved into the seeded table is found again under its new id. */
  lemma SaveAndRetrieve()
    ensures var banana := NewFood(Some("Banana"), Some(0.3), Some(23.0), Some(1.1), Some(89.0));
            var saved := Save(Seeded(), banana);
            && saved.food.id == Some(4)
            && FindById(saved.store, 4) == Some(banana.(id := Some(4)))
  {
  }

  /** Creating "APPLE" after "Apple" is refused and the first stays the only one. */
  lemma DuplicateNameDifferingInCase()
    ensures var apple := NewFood(Some("Apple"), Some(0.2), Some(25.0), Some(0.3), Some(95.0));
            var first := SaveFood(Empty, apple);
            var second := SaveFood(first.store, apple.(name := Some("APPLE")));
            && first.result == Ok(apple.(id := Some(1)))
            && second.result == Err(DuplicateName(Some("APPLE")))
            && second.store.records == map[1 := apple.(id := Some(1))]
  {
    EmptyInv();
    var apple := NewFood(Some("Apple"), Some(0.2), Some(25.0), Some(0.3), Some(95.0));
    var first := SaveFood(Empty, apple);
    assert Fold("Apple") == "apple";
    assert Fold("APPLE") == "apple";
    assert SameName(first.store.records[1].name, Some("APPLE"));
  }

  const UpdatedChicken := NewFood(Some("Chicken Breast Updated"), Some(4.0), Some(0.0), Some(32.0), Some(170.0))

  /** Creating the chicken breast in an empty table stores it under id 1. */
  lemma CreateChicken()
    ensures Inv(Empty)
    ensures SaveFood(Empty, ChickenBreast) == Outcome(Store(map[1 := StoredChicken], 2), Ok(StoredChicken))
  {
    EmptyInv();
  }

  /** Renaming it to "Chicken Breast Updated" overwrites every field but the id. */
  lemma RenameChicken()
    ensures Inv(Store(map[1 := StoredChicken], 2))
    ensures UpdateFood(Store(map[1 := StoredChicken], 2), 1, UpdatedChicken)
            == Outcome(Store(map[1 := UpdatedChicken.(id := Some(1))], 2), Ok(UpdatedChicken.(id := Some(1))))
  {
    var s := Store(map[1 := StoredChicken], 2);
    assert Fold("Chicken Breast") == "chicken breast";
    assert Fold("Chicken Breast Updated") == "chicken breast updated";
    assert !NameHeld(s, UpdatedChicken.name);
  }

  /** Deleting it empties the table; the id is not handed out again. */
  lemma DeleteChicken()
    ensures Inv(Store(map[1 := UpdatedChicken.(id := Some(1))], 2))
    ensures DeleteFood(Store(map[1 := UpdatedChicken.(id := Some(1))], 2), 1) == Outcome(Store(map[], 2), Ok(()))
  {
  }

  /**
    Create, read, rename, delete and read again: the rename returns the new name
    and protein 32 under the same id, and after the delete the id is no longer found.
   */
  lemma CreateReadUpdateDelete()
    ensures var created := SaveFood(Empty, ChickenBreast);
            && created.result == Ok(StoredChicken)
            && GetFoodById(created.store, 1) == Some(StoredChicken)
            && var updated := UpdateFood(created.store, 1, UpdatedChicken);
            && updated.result.Ok? && updated.result.value.id == Some(1)
            && updated.result.value.name == Some("Chicken Breast Updated")
            && updated.result.value.protein == Some(32.0)
            && var deleted := DeleteFood(updated.store, 1);
            && deleted.result.Ok?
            && GetFoodById(deleted.store, 1).None?
  {
    CreateChicken();
    RenameChicken();
    DeleteChicken();
  }

  /** Renaming a record to its own name in another case is not a duplicate. */
  lemma RenameToOwnNameInOtherCase()
    ensures var details := SalmonFillet.(name := Some("SALMON FILLET"));
            UpdateFood(Seeded(), 2, details).result == Ok(details.(id := Some(2)))
  {
    assert Fold("Salmon Fillet") == "salmon fillet";
    assert Fold("SALMON FILLET") == "salmon fillet";
  }

  /** Renaming the chicken breast to "Salmon Fillet" is refused and nothing is saved. */
  lemma RenameToTakenName()
    ensures UpdateFood(Seeded(), 1, SalmonFillet) == Outcome(Seeded(), Err(DuplicateName(Some("Salmon Fillet"))))
  {
    var s := Seeded();
    assert Fold("Chicken Breast") == "chicken breast";
    assert Fold("Salmon Fillet") == "salmon fillet";
    assert SameName(s.records[2].name, Some("Salmon Fillet"));
  }

  /** Updating or deleting an unknown id fails and changes nothing. */
  lemma UnknownIdNotFound()
    ensures UpdateFood(Seeded(), 999, ChickenBreast) == Outcome(Seeded(), Err(NotFound(999)))
    ensures DeleteFood(Seeded(), 999) == Outcome(Seeded(), Err(NotFound(999)))
  {
  }
}

=== FILE: service.dfy ===
/**
  The food service: the business-rule layer over the record store. Creating a
  record and renaming one are refused when the name is already taken ignoring
  case; updating and deleting are refused for an unknown id. Every transition
  is a pure function from a store to the next store and a result.
 */
module FoodService {
  import opened Optional
  import opened Text
  import opened Entity
  import opened FoodRepository

  /** The exceptions the service throws, one case each. */
  datatype Error =
    | DuplicateName(name: Option<string>)  // IllegalArgumentException: name already exists
    | NotFound(id: nat)                    // EntityNotFoundException: no record with that id
    | NullName                             // NullPointerException: the stored record has no name

  datatype Result<+T> = Ok(value: T) | Err(error: Error)

  /** The store after a transition, and what the call returned or threw. */
  datatype Outcome<+T> = Outcome(store: Store, result: Result<T>)

  /** No two stored records carry the same name, ignoring case. */
  ghost predicate UniqueNames(s: Store) {
    forall j, k :: j in s.records && k in s.records && j != k ==>
      !SameName(s.records[j].name, s.records[k].name)
  }

  /** Some stored record carries `name`, ignoring case. */
  ghost predicate NameHeld(s: Store, name: Option<string>) {
    exists k :: k in s.records && SameName(s.records[k].name, name)
  }

  /** `isFoodNameTaken`: asks the store whether the name exists, ignoring case. */
  function IsFoodNameTaken(s: Store, name: Option<string>): (r: bool)
    requires Inv(s)
    ensures r <==> NameHeld(s, name)
  {
    ExistsByNameIgnoreCase(s, name)
  }

  /**
    `saveFood`: refuses a name that is already taken and leaves the store as it
    was; otherwise inserts exactly one record, under a fresh id, carrying the
    given fields, and returns it.
   */
  function SaveFood(s: Store, food: Food): (r: Outcome<Food>)
    requires Inv(s)
    requires food.id.None?
    ensures Inv(r.store)
    ensures r.result.Err? <==> NameHeld(s, food.name)
    ensures r.result.Err? ==> r.result.error == DuplicateName(food.name) && r.store == s
    ensures r.result.Ok? ==>
              && r.result.value.id == Some(s.nextId) && s.nextId !in s.records
              && r.result.value.(id := None) == food
              && r.store.records == s.records[s.nextId := r.result.value]
              && r.store.nextId == s.nextId + 1
    ensures UniqueNames(s) ==> UniqueNames(r.store)
  {
    if IsFoodNameTaken(s, food.name) then
      Outcome(s, Err(DuplicateName(food.name)))
    else
      var saved := Save(s, food);
      Outcome(saved.store, Ok(saved.food))
  }

  /** `getFoodById`: the record under `id`, or nothing. */
  function GetFoodById(s: Store, id: nat): (r: Option<Food>)
    requires Inv(s)
    ensures r.Some? <==> id in s.records
    ensures r.Some? ==> r.value == s.records[id] && r.value.id == Some(id)
  {
    FindById(s, id)
  }

  /** `getAllFoods`: every stored record, each once. */
  function GetAllFoods(s: Store): (r: seq<Food>)
    requires Inv(s)
    ensures forall f :: f in r <==> f in s.records.Values
  {
    FindAll(s)
  }

  /**
    `updateFood`: looks up the record (`NotFound` when absent), refuses a new
    name held by a different record unless it equals the current name ignoring
    case, then overwrites name, calories, protein, carbohydrates and fat and
    saves. The comparison with the current name dereferences it, so a stored
    record without a name makes the call throw.
   */
  function UpdateFood(s: Store, id: nat, details: Food): (r: Outcome<Food>)
    requires Inv(s)
    ensures Inv(r.store)
    ensures r.result.Err? ==> r.store == s
    ensures r.result == Err(NotFound(id)) <==> id !in s.records
    ensures r.result == Err(NullName) <==> id in s.records && s.records[id].name.None?
    ensures r.result.Err? && r.result.error.DuplicateName? ==>
              && id in s.records
              && r.result.error == DuplicateName(details.name)
              && !SameName(s.records[id].name, details.name)
              && exists k :: k in s.records && k != id && SameName(s.records[k].name, details.name)
    ensures r.result.Ok? <==>
              && id in s.records && s.records[id].name.Some?
              && (SameName(s.records[id].name, details.name) || !NameHeld(s, details.name))
    ensures r.result == Err(DuplicateName(details.name)) <==>
              && id in s.records && s.records[id].name.Some?
              && !SameName(s.records[id].name, details.name) && NameHeld(s, details.name)
    ensures UniqueNames(s) ==>
              (r.result == Err(DuplicateName(details.name)) <==>
                 && id in s.records && s.records[id].name.Some?
                 && exists k :: k in s.records && k != id && SameName(s.records[k].name, details.name))
    ensures r.result.Ok? ==>
              && id in s.records
              && r.result.value.id == Some(id)
              && r.result.value.(id := details.id) == details
              && r.store.records == s.records[id := r.result.value]
              && r.store.nextId == s.nextId
    ensures UniqueNames(s) ==> UniqueNames(r.store)
  {
    match FindById(s, id)
    case None => Outcome(s, Err(NotFound(id)))
    case Some(food) =>
      if food.name.None? then
        Outcome(s, Err(NullName))
      else if !SameName(food.name, details.name) && IsFoodNameTaken(s, details.name) then
        Outcome(s, Err(DuplicateName(details.name)))
      else
        var saved := Save(s, WithDetails(food, details));
        Outcome(saved.store, Ok(saved.food))
  }

  /**
    `deleteFood`: `NotFound` with no change when the id is unknown; otherwise
    the record is removed and every other record stays as it was.
   */
  function DeleteFood(s: Store, id: nat): (r: Outcome<()>)
    requires Inv(s)
    ensures Inv(r.store)
    ensures r.result.Err? <==> id !in s.records
    ensures r.result.Err? ==> r.result.error == NotFound(id) && r.store == s
    ensures r.result.Ok? ==>
              && GetFoodById(r.store, id).None?
              && r.store.records.Keys == s.records.Keys - {id}
              && (forall k :: k in r.store.records ==> r.store.records[k] == s.records[k])
              && r.store.nextId == s.nextId
    ensures UniqueNames(s) ==> UniqueNames(r.store)
  {
    if !ExistsById(s, id) then
      Outcome(s, Err(NotFound(id)))
    else
      Outcome(DeleteById(s, id), Ok(()))
  }

  /** `searchFoodsByName`: records whose name contains the fragment, ignoring case. */
  function SearchFoodsByName(s: Store, fragment: string): (r: seq<Food>)
    requires Inv(s)
    ensures forall f :: f in r <==>
              f in s.records.Values && f.name.Some? && Contains(Fold(f.name.value), Fold(fragment))
  {
    FindByNameContainingIgnoreCase(s, fragment)
  }

  /** `getFoodsByCaloriesLessThan`: despite the name, the bound is inclusive. */
  function GetFoodsByCaloriesLessThan(s: Store, calories: real): (r: seq<Food>)
    requires Inv(s)
    ensures forall f :: f in r <==>
              f in s.records.Values && f.calories.Some? && f.calories.value <= calories
    ensures forall f :: f in s.records.Values && f.calories == Some(calories) ==> f in r
  {
    FindByCaloriesLessThanEqual(s, calories)
  }

  /** `getFoodsByProteinRange`: records with protein between the bounds, both included. */
  function GetFoodsByProteinRange(s: Store, minProtein: real, maxProtein: real): (r: seq<Food>)
    requires Inv(s)
    ensures forall f :: f in r <==>
              f in s.records.Values && f.protein.Some? && minProtein <= f.protein.value <= maxProtein
  {
    FindByProteinBetween(s, minProtein, maxProtein)
  }

  /** The calls a client can make that change the store. */
  datatype Command =
    | Create(food: Food)
    | Update(id: nat, details: Food)
    | Delete(id: nat)

  /** A create command only ever carries an id-less record. */
  predicate WellFormed(c: Command) {
    c.Create? ==> c.food.id.None?
  }

  /** The store after one command, whatever the command returned. */
  function Apply(s: Store, c: Command): (t: Store)
    requires Inv(s) && WellFormed(c)
    ensures Inv(t)
    ensures UniqueNames(s) ==> UniqueNames(t)
    ensures s.nextId <= t.nextId
  {
    match c
    case Create(food) => SaveFood(s, food).store
    case Update(id, details) => UpdateFood(s, id, details).store
    case Delete(id) => DeleteFood(s, id).store
  }

  /**
    The store after a sequence of commands, applied left to right. The
    identity generator never moves back, so an id once handed out is not
    handed out again.
   */
  function Run(s: Store, cs: seq<Command>): (t: Store)
    requires Inv(s)
    requires forall i :: 0 <= i < |cs| ==> WellFormed(cs[i])
    ensures Inv(t)
    ensures s.nextId <= t.nextId
    decreases |cs|
  {
    if cs == [] then s else Run(Apply(s, cs[0]), cs[1..])
  }

  /**
    Name uniqueness is an invariant of the service: from a store with unique
    names, any sequence of creates, updates and deletes leads to a store with
    unique names.
   */
  lemma {:induction false} RunKeepsNamesUnique(s: Store, cs: seq<Command>)
    requires Inv(s) && UniqueNames(s)
    requires forall i :: 0 <= i < |cs| ==> WellFormed(cs[i])
    ensures UniqueNames(Run(s, cs))
    decreases |cs|
  {
    if cs != [] {
      RunKeepsNamesUnique(Apply(s, cs[0]), cs[1..]);
    }
  }

  /** Every store the service can reach from an empty table has unique names. */
  lemma ReachableNamesUnique(cs: seq<Command>)
    requires forall i :: 0 <= i < |cs| ==> WellFormed(cs[i])
    ensures Inv(Empty)
    ensures UniqueNames(Run(Empty, cs))
  {
    EmptyInv();
    RunKeepsNamesUnique(Empty, cs);
  }
}

=== FILE: text.dfy ===
/**
  The string operations the food service relies on: case-insensitive
  comparison, case-insensitive substring search and the blank test of the
  `@NotBlank` constraint. Case folding is ASCII lower-casing, used both for
  `String.equalsIgnoreCase` in the service and for the `IgnoreCase` keyword of
  the repository's derived queries.
 */
module Text {

  /** ASCII lower-casing of one character; every other character is unchanged. */
  function LowerChar(c: char): char {
    if 'A' <= c <= 'Z' then (c as int - 'A' as int + 'a' as int) as char else c
  }

  /** Case folding of a whole string, character by character. */
  function Fold(s: string): (r: string)
    ensures |r| == |s|
    ensures forall i :: 0 <= i < |s| ==> r[i] == LowerChar(s[i])
  {
    seq(|s|, i requires 0 <= i < |s| => LowerChar(s[i]))
  }

  /** Two strings are equal ignoring case when their folds coincide. */
  predicate EqualsIgnoreCase(a: string, b: string) {
    Fold(a) == Fold(b)
  }

  /**
    The comparison `String.equalsIgnoreCase` performs: lengths first, then
    one character pair at a time, stopping at the first mismatch. It agrees
    with comparing the folded strings.
   */
  method CompareIgnoreCase(a: string, b: string) returns (equal: bool)
    ensures equal <==> EqualsIgnoreCase(a, b)
  {
    if |a| != |b| {
      assert |Fold(a)| != |Fold(b)|;
      return false;
    }
    var i := 0;
    while i < |a|
      invariant 0 <= i <= |a|
      invariant forall j :: 0 <= j < i ==> LowerChar(a[j]) == LowerChar(b[j])
    {
      if LowerChar(a[i]) != LowerChar(b[i]) {
        assert Fold(a)[i] != Fold(b)[i];
        return false;
      }
      i := i + 1;
    }
    assert Fold(a) == Fold(b);
    return true;
  }

  /** `t` occurs in `s` starting at position `i`. */
  predicate OccursAt(s: string, t: string, i: int) {
    0 <= i && i + |t| <= |s| && s[i..i + |t|] == t
  }

  /**
    Substring test: `t` occurs somewhere in `s`. The empty string occurs in
    every string, as `LIKE '%%'` matches every non-null value.
   */
  predicate Contains(s: string, t: string) {
    exists i :: 0 <= i <= |s| - |t| && OccursAt(s, t, i)
  }

  /** A non-empty fragment whose first character never occurs in `s` is not found in `s`. */
  lemma AbsentFirstCharNotContained(s: string, t: string)
    requires 0 < |t|
    requires forall i :: 0 <= i < |s| ==> s[i] != t[0]
    ensures !Contains(s, t)
  {
    if i :| 0 <= i <= |s| - |t| && OccursAt(s, t, i) {
      assert s[i..i + |t|][0] == t[0];
    }
  }

  /** Characters `String.trim` strips: every code point up to the space. */
  predicate IsTrimmed(c: char) {
    c <= ' '
  }

  function TrimStart(s: string): string
    decreases |s|
  {
    if 0 < |s| && IsTrimmed(s[0]) then TrimStart(s[1..]) else s
  }

  function TrimEnd(s: string): string
    decreases |s|
  {
    if 0 < |s| && IsTrimmed(s[|s| - 1]) then TrimEnd(s[..|s| - 1]) else s
  }

  /** `String.trim`: strips trimmable characters at both ends. */
  function Trim(s: string): string {
    TrimEnd(TrimStart(s))
  }

  /** Some character of `s` is above U+0020, so `String.trim` keeps it. */
  predicate HasNonBlank(s: string) {
    exists i :: 0 <= i < |s| && !IsTrimmed(s[i])
  }

  /** `@NotBlank` accepts a non-null string whose trimmed form is not empty. */
  predicate NotBlank(s: string) {
    |Trim(s)| > 0
  }

  lemma {:induction false} TrimStartKeepsNonBlank(s: string)
    ensures HasNonBlank(TrimStart(s)) <==> HasNonBlank(s)
    decreases |s|
  {
    if 0 < |s| && IsTrimmed(s[0]) {
      TrimStartKeepsNonBlank(s[1..]);
      if HasNonBlank(s) {
        var i :| 0 <= i < |s| && !IsTrimmed(s[i]);
        assert s[1..][i - 1] == s[i];
      }
      if HasNonBlank(s[1..]) {
        var i :| 0 <= i < |s[1..]| && !IsTrimmed(s[1..][i]);
        assert s[i + 1] == s[1..][i];
      }
    }
  }

  lemma {:induction false} TrimEndEmptyIff(s: string)
    ensures TrimEnd(s) == [] <==> !HasNonBlank(s)
    decreases |s|
  {
    if 0 < |s| && IsTrimmed(s[|s| - 1]) {
      var u := s[..|s| - 1];
      TrimEndEmptyIff(u);
      if HasNonBlank(s) {
        var i :| 0 <= i < |s| && !IsTrimmed(s[i]);
        assert i < |s| - 1;
        assert u[i] == s[i];
      }
      if HasNonBlank(u) {
        var i :| 0 <= i < |u| && !IsTrimmed(u[i]);
        assert s[i] == u[i];
      }
    } else if 0 < |s| {
      assert !IsTrimmed(s[|s| - 1]);
    }
  }

  /** A string passes `@NotBlank` exactly when it has a character above U+0020. */
  lemma NotBlankIff(s: string)
    ensures NotBlank(s) <==> HasNonBlank(s)
  {
    TrimStartKeepsNonBlank(s);
    TrimEndEmptyIff(TrimStart(s));
  }
}
